=== FILE: README.md ===
# Bandwidth Meter usage accounting, in Dafny

This project models the accounting engine of a tray bandwidth meter and proves properties about it. The engine polls the cumulative byte counters of a network adapter every two seconds. It turns counter growth into today's usage and this billing cycle's usage, and it survives counter resets and a resume-from-sleep glitch. It rolls over at day and cycle boundaries and saves its totals as a fourteen-line text snapshot that a later start reads back.

Modules, following the two source files:

- `BandwidthUsage` (`usage.dfy`) covers `BandwidthUsage.cs`. It models the immutable (download, upload) byte pair. Its constructor clamps each field at zero, so pair and scalar arithmetic saturate at zero. `<` and `>` are the predicates `Less` and `Greater`, which compare "in any field" (`ComparisonIsNotAnOrder` states what they are). It also has the truncated MB views.
- `Calendar` (`calendar.dfy`) is the part of `DateTime` the tracker uses:
  - Gregorian month lengths and leap years;
  - chronological order;
  - `AddMonths`, which clamps the day to the target month's last day;
  - a day number that serves as an independent reference for ordering and day counts.
- `Cycle` (`cycle.dfy`) covers the tracker's calendar helpers `GetLastMonthStart`, `IsNewDay`, `IsNewMonth` and `DaysRemaining`. The two predicates `IsNewDay` and `IsNewMonth` are characterised by day numbers in `NewDayAndMonthByDayNumber`. It also holds the integer part of the remaining-allowance figure: `_monthLimit`, `dailyAllowance` and `daysPassed`.
- `Tracker` (`tracker.dfy`) holds the tracker state, the fresh constructor and the tick (`timer_Elapsed`) with its steps:
  - `CheckInterfaceReset`;
  - `UpdateUsage`, with the predicate `IsOffPeakTime` fixed to false (`TickNeverAddsOffPeak` states the consequence);
  - `UpdateDownloadSpeed`;
  - `UpdateNewDay`.
  `Run` folds ticks over one date and `Replay` over a sequence of (date, reading) samples. The lemmas about ticks are in `TrackerProperties` (`tracker_properties.dfy`).
- `Decimal` (`decimal.dfy`) is the text layer:
  - .NET's decimal `ToString`;
  - `int.Parse` / `long.Parse` in the default integer style, which allows surrounding white space and a sign;
  - lines ended by `"\r\n"`;
  - `Split` on `"\r\n"` with empty entries removed.
- `Snapshot` (`snapshot.dfy`) covers `GetSaveString` and the restoring constructor. The round-trip lemmas are in `SnapshotProperties` (`snapshot_properties.dfy`).

The clock and the adapter are inputs. Each tick receives `today` and a `Probe`. The probe says whether an operational adapter can be found, which only matters while none is held, and what counters the adapter in use reports. Each tick sees one reading. The `Tick` event is the `notified` flag of the tick's result. The configured cycle start day is assumed to lie in 1..28, as the application's value 6 does.

Behaviours of the code that are easy to misread, all modelled as written:

- A tick that first finds an adapter does not return early. It baselines the adapter, attributes a zero delta (which zeroes the speeds), runs the rollover and raises the event.
- The restoring constructor does not check for exactly fourteen fields. It reads fields 0 to 5 always. It reads fields 6 to 9 only when the saved day is kept, and fields 10 to 13 only when the saved cycle is kept. Extra entries are ignored. Six lines are therefore enough when both the day and the cycle are stale (`RestoreReadsLazily`).
- Without an adapter a tick returns before the rollover. The saved day can therefore fall behind today, and the cycle start can fall more than a month behind. The cycle start is only kept within a month of today by ticks that get past the adapter check (`TickPreservesValid`).
- After a cycle rollover the cycle start becomes the day the rollover is seen, not the configured day. If that day is missed, the cycle drifts (`CycleStartFollowsRolloverDay`).

## Model

| member | source | states |
|---|---|---|
| BandwidthUsage.Make | src/BandwidthUsage.cs:12-16 | each field is the argument when it is non-negative and zero otherwise |
| BandwidthUsage.MakeIdentityOnNonNegative | src/BandwidthUsage.cs:12-16 | rebuilding a pair from its own fields gives it back, and clamping twice is clamping once |
| BandwidthUsage.Add | src/BandwidthUsage.cs:19-22 | each field of the sum is the sum of the fields, with no clamping needed on non-negative pairs |
| BandwidthUsage.AddLaws | src/BandwidthUsage.cs:19-22 | addition is commutative and associative with the zero pair as identity, and each field of a sum is at least that of either operand |
| BandwidthUsage.AddScalar | src/BandwidthUsage.cs:23-26 | the scalar, which may be negative, is added to both fields and each result is clamped at zero |
| BandwidthUsage.Sub | src/BandwidthUsage.cs:27-30 | per field: the difference when the right field is not larger, zero otherwise, and never more than the left field |
| BandwidthUsage.SubExample | src/BandwidthUsage.cs:27-30 | `{5,5} - {10,1} = {0,4}` |
| BandwidthUsage.SubUndoesAdd | src/BandwidthUsage.cs:19-30 | a difference is field-wise at most its left operand, and `(a + b) - b = a` |
| BandwidthUsage.AddBackIffNotLess | src/BandwidthUsage.cs:27-42 | `(a - b) + b = a` exactly when `a < b` is false; otherwise the result only exceeds `a` |
| BandwidthUsage.SubZeroIffNotGreater | src/BandwidthUsage.cs:27-46 | `a - b` is the zero pair exactly when `a > b` is false |
| BandwidthUsage.SubScalar | src/BandwidthUsage.cs:31-34 | the scalar is taken from both fields and each result is clamped at zero |
| BandwidthUsage.ScalarSub | src/BandwidthUsage.cs:35-38 | each field becomes the scalar minus the field, clamped at zero |
| BandwidthUsage.ScalarFormsAgree | src/BandwidthUsage.cs:23-38 | pair minus scalar is pair plus the negated scalar, and for a non-negative scalar the three scalar forms equal the pair forms on `{v, v}` |
| BandwidthUsage.ComparisonIsNotAnOrder | src/BandwidthUsage.cs:39-46 | `a < b` iff `b > a`, both are irreflexive, not `a < b` iff `b` is field-wise at most `a`, and `{1,5}` is both below and above `{5,1}` |
| BandwidthUsage.TotalBytes | src/BandwidthUsage.cs:49-52 | the total is at least each field and the upload plus the download |
| BandwidthUsage.DownloadMB | src/BandwidthUsage.cs:53-56 | the whole mebibytes of the download: `r * 2^20 <= download < (r + 1) * 2^20` |
| BandwidthUsage.UploadMB | src/BandwidthUsage.cs:57-60 | the whole mebibytes of the upload, truncated |
| BandwidthUsage.TotalMB | src/BandwidthUsage.cs:61-64 | the sum of the two truncated views: the result in mebibytes plus the two fields' sub-mebibyte remainders is the total in bytes, so it lies between `r` and `r + 2` mebibytes |
| BandwidthUsage.TotalMBIsNotTruncatedTotal | src/BandwidthUsage.cs:53-64 | two half-mebibyte fields give a `TotalMB` of 0 although the total is one mebibyte |
| Calendar.DaysInMonth | src/BandwidthTracker.cs:132 | months have 28 to 31 days, and February has 29 exactly in leap years |
| Calendar.AddMonths | src/BandwidthTracker.cs:86-89 | the result is a real date, the month index moves by exactly the given count, and the day is kept or clamped to the target month's last day |
| Calendar.AddMonthsFacts | src/BandwidthTracker.cs:76-89 | a month later is later, a month earlier is earlier, and for days up to the 28th the day is kept and one step back then forward is the identity |
| Calendar.BeforeIffSmallerDayNumber | src/BandwidthTracker.cs:82-89 | the date order used by `IsNewDay` / `IsNewMonth` is exactly the order of day numbers on real dates |
| Cycle.GetLastMonthStart | src/BandwidthTracker.cs:76-81 | a real date on the configured day, not after today, with today before it plus one month |
| Cycle.LastMonthStartIsLatest | src/BandwidthTracker.cs:76-81 | every real date on the configured day that is not after today is at or before the computed cycle start |
| Cycle.LastMonthStartIsNotNewMonth | src/BandwidthTracker.cs:76-89 | `IsNewMonth` of the computed cycle start is false on the same day, and `IsNewDay(today)` is false |
| Cycle.NewDayAndMonthByDayNumber | src/BandwidthTracker.cs:82-89 | `IsNewDay` holds exactly when today's day number exceeds the last day's, and `IsNewMonth` exactly when it is at least that of the cycle start plus one month |
| Cycle.DaysRemaining | src/BandwidthTracker.cs:128-133 | the result lies in 1 to the month's length, and equals the month's length exactly on the configured day |
| Cycle.DaysRemainingCountsDays | src/BandwidthTracker.cs:128-133 | the result is the number of days from today to the next cycle start, counted by day numbers |
| Cycle.DaysRemainingExamples | src/BandwidthTracker.cs:128-133 | with cycle day 6: day 3 gives 3, day 6 gives the month's length, day 20 of a 30-day month gives 16 |
| Cycle.MonthLimit | src/BandwidthTracker.cs:38 | the byte limit is a whole number of GiB, namely the configured count |
| Cycle.DailyAllowance | src/BandwidthTracker.cs:185 | a thirty-first of the limit, truncated toward zero for either sign |
| Cycle.DaysPassed | src/BandwidthTracker.cs:186 | lies in 1..31 and is at least `32 - daysInMonth` |
| Cycle.BudgetSoFar | src/BandwidthTracker.cs:185-187 | for a non-negative limit it is between one day's allowance and the limit, and on the cycle's last day it is within 31 bytes of the limit |
| Cycle.BudgetPerDay | src/BandwidthTracker.cs:185-187 | between two days of one cycle, the days passed differ by the days between them (counted by day numbers), and the budget by that many daily allowances |
| Cycle.FixedDivisorExample | src/BandwidthTracker.cs:185-186 | the fixed divisor 31 budgets four days on the first day of a cycle starting in a 28-day February |
| Decimal.IntToString | src/BandwidthTracker.cs:98-116 | the text is non-empty, has no white space, and is all digits exactly when the number is non-negative |
| Decimal.ParseInt | src/BandwidthTracker.cs:57-72 | after trimming surrounding white space: a run of digits parses to its value, a `-` or `+` before a run of digits parses to the negated or plain value, and any other text fails, including blank text and a lone sign |
| Decimal.WriteLines | src/BandwidthTracker.cs:98-116 | non-empty output ends with `"\r\n"` |
| Decimal.SplitLines | src/BandwidthTracker.cs:56 | no entry of the split is empty |
| Decimal.SplitWriteLines | src/BandwidthTracker.cs:56 | splitting lines written with `"\r\n"` endings gives one entry per value, in order |
| Decimal.ParseIntOfIntToString | src/BandwidthTracker.cs:57-58 | parsing the decimal text of any integer gives that integer back |
| Tracker.Init | src/BandwidthTracker.cs:36-53 | a fresh tracker stores the configured cycle day, off-peak hours and the limit in bytes, is dated today, its cycle is the last configured cycle start (so the current day lies inside it), its totals and speeds are zero, and its baseline is the found adapter's counters or the zero pair without one |
| Tracker.AdapterTotal | src/BandwidthTracker.cs:232-239 | a held adapter reads as its counters; with none held the counters read as the zero pair |
| Tracker.CheckInterfaceReset | src/BandwidthTracker.cs:284-291 | counters below the baseline in either field make them the baseline with nothing counted; otherwise the state is unchanged; afterwards the baseline never exceeds the reading |
| Tracker.UpdateUsage | src/BandwidthTracker.cs:293-305 | the delta is added to today's and the cycle's on-peak totals and nothing else changes |
| Tracker.Speed | src/BandwidthTracker.cs:306-310 | the kB/s figure over the 2000 ms interval: `r * 2048 <= bytes < (r + 1) * 2048` |
| Tracker.UpdateDownloadSpeed | src/BandwidthTracker.cs:306-310 | both speeds are their field of the delta per 2048 bytes, truncated, and nothing else changes |
| Tracker.UpdateNewDay | src/BandwidthTracker.cs:312-327 | on a later day the daily totals are zeroed and the day advanced, with the cycle reset nested inside and only once the cycle is a month old; otherwise nothing changes; afterwards today is not after the current day |
| Tracker.Baseline | src/BandwidthTracker.cs:258-265 | after the adapter step an adapter is held, and only the baseline and counted fields have changed |
| Tracker.Bytes | src/BandwidthTracker.cs:228-231 | the counted bytes never exceed the counters read |
| Tracker.Delta | src/BandwidthTracker.cs:268 | the bytes a tick attributes never exceed the counted bytes after the adapter step |
| Tracker.Tick | src/BandwidthTracker.cs:256-282 | the event is raised iff an adapter is held or found; without one the state is unchanged; after the tick the counted bytes are the counters minus the baseline, today is not after the current day, and the dates come from the old state or today |
| TrackerProperties.TickWithoutInterface | src/BandwidthTracker.cs:258-261 | with no adapter held or found the tick leaves the state as it was and raises no event |
| TrackerProperties.TickAcquiresInterface | src/BandwidthTracker.cs:258-264 | the tick that finds an adapter baselines at its counters, attributes a zero delta, zeroes the speeds and keeps the totals absent a rollover |
| TrackerProperties.TickCounterReset | src/BandwidthTracker.cs:284-291 | after a counter reset the baseline is the reading, nothing is counted, the delta is zero and the totals are unchanged absent a rollover |
| TrackerProperties.TickDeltaIsGrowth | src/BandwidthTracker.cs:268-269 | on a held adapter whose counters grew, the old count plus the delta is the new count |
| TrackerProperties.TickAccepted | src/BandwidthTracker.cs:268-310 | a delta under 10 MiB of download grows today's and the cycle's on-peak totals by exactly the delta, leaves the off-peak totals, and sets the speeds to the delta over 2048 |
| TrackerProperties.TickGlitchGuard | src/BandwidthTracker.cs:268-280 | a delta of 10 MiB or more of download changes neither totals nor speeds, but the counted bytes still advance |
| TrackerProperties.TickNeverAddsOffPeak | src/BandwidthTracker.cs:134-146 | the off-peak totals are only ever kept or zeroed, because the classifier always answers on-peak |
| TrackerProperties.TickMonotoneSameDay | src/BandwidthTracker.cs:273-305 | without a rollover, the on-peak totals never decrease and the dates stay |
| TrackerProperties.RunMonotoneSameDay | src/BandwidthTracker.cs:256-282 | across any run of ticks on a day not after the current day, the totals never decrease and no rollover happens |
| TrackerProperties.TickKeepsCycleTotals | src/BandwidthTracker.cs:256-327 | a tick that does not roll the cycle over, on whatever day, keeps the cycle start and off-peak total and never lowers the on-peak total |
| TrackerProperties.ReplayKeepsCycleTotals | src/BandwidthTracker.cs:256-327 | across any run of ticks over any number of days, all within a month of the cycle start, the cycle start stays and the cycle totals never decrease |
| TrackerProperties.RolloverAtMostOnce | src/BandwidthTracker.cs:312-327 | the rollover applied twice on one date is applied once, and after a tick that raised the event no later tick that day resets a total |
| TrackerProperties.TickPreservesValid | src/BandwidthTracker.cs:312-327 | a tick keeps the current day inside the current cycle, and when the clock did not go back the cycle start is at most a month behind today |
| TrackerProperties.CycleStartFollowsRolloverDay | src/BandwidthTracker.cs:320-325 | a rollover first seen on the 7th starts the cycle on the 7th although the configured day is the 6th |
| Snapshot.Fields | src/BandwidthTracker.cs:98-116 | the snapshot holds exactly fourteen numbers |
| Snapshot.GetSaveString | src/BandwidthTracker.cs:98-116 | the text splits into exactly fourteen entries and ends with `"\r\n"` |
| Snapshot.ReadField | src/BandwidthTracker.cs:57-72 | a missing entry is an index error, and otherwise the result agrees with parsing the entry |
| Snapshot.ReadDate | src/BandwidthTracker.cs:57-58 | a field that is missing or does not parse fails; three parsed fields give their date when `DateTime` can hold it and a date error otherwise |
| Snapshot.ReadUsage | src/BandwidthTracker.cs:63-72 | a field that is missing or does not parse fails; two parsed fields give the pair clamped at zero |
| Snapshot.Restore | src/BandwidthTracker.cs:54-75 | a restored tracker is the fresh one except for the two dates and four totals; a date that fails to read fails the restore, and with both dates read it fails exactly when a kept day's or kept cycle's totals fail to read; on success the kept dates and totals are the parsed entries, a past day gives today with zero totals, a month-old cycle gives the last cycle start with zero totals, and fewer than six entries fail |
| SnapshotProperties.RestoreWrittenFields | src/BandwidthTracker.cs:54-75 | from any written lines whose two dates exist: the saved day and its totals are kept unless past, the saved cycle and its totals unless a month old, otherwise today or the last cycle start with zero totals, and restored totals are clamped at zero |
| SnapshotProperties.RestoreRoundTrip | src/BandwidthTracker.cs:54-116 | reading back a snapshot on a day when neither date is stale reproduces both dates and all four totals |
| SnapshotProperties.RestoreDiscardsStale | src/BandwidthTracker.cs:60-74 | a snapshot read on a later day starts today's totals at zero, and keeps the cycle's only while the saved cycle is under a month old |
| SnapshotProperties.RestoreReadsLazily | src/BandwidthTracker.cs:56-74 | six lines suffice when day and cycle are both stale, and fail with a missing field 6 when the day is kept |
| SnapshotProperties.SaveAfterTickRestores | src/BandwidthTracker.cs:98-116 | a snapshot taken after a tick that got past the adapter check reads back exactly on the same day, even when the clock went back |

## Left out

- The WinForms front end (`src/BandwidthMeter.cs`) is not modelled: painting, tray icon, menus, window lifecycle, log file reading and writing, and the save every 30 ticks.
- Adapter discovery (`GetNIC`, `NetworkInterface`, `GetIPv4Statistics`) is replaced by the per-tick `Probe` input. The source reads the counters several times within one tick; the model uses one reading per tick.
- `System.Timers.Timer`, `Dispose`, the `Tick` event's subscribers and threading are not modelled; a tick is one atomic step. The restoring constructor starts the timer before it parses the snapshot, and that race is not modelled either.
- `DateTime.Now` is the `today` parameter. A midnight passing between two clock reads within one call is not modelled.
- The floating-point parts are not modelled: the GB properties, the float tail of `RemainingTodayString`, `NotifyString` and the float type of `TotalMB`.
- The console message the glitch branch of the tick writes (`Console.WriteLine` at `src/BandwidthTracker.cs:278`) is not modelled; the model only drops the delta.
- Display strings (`Name`, the `*String` properties, `DataString`, `InterfaceTypeString`) are not modelled. Neither are the private, unused `RemainingOnPeak` and `RemainingOffPeak`.
- BandwidthUsage.Make: fields are unbounded naturals. The 64-bit wrap-around of `long` arithmetic and the 32-bit `(int)` casts in `DownloadMB`, `UploadMB` and the speeds are not modelled.
- Snapshot.ReadField: `long.Parse` / `int.Parse` overflow is not modelled. An oversized usage field reads successfully, and an oversized date field fails as `BadDate` rather than as an overflow. Culture-specific signs and trailing NUL characters are not modelled.
- Tracker.Speed: the source divides as `double` (by 2.0, then by 1024) and casts to `int`. The model divides as integers. Both divisions are exact in `double` for deltas below 2^53, so the two agree there; only the download delta is bounded, by the 10 MiB guard, so a large upload delta can give an upload speed beyond 32 bits, which the `(int)` cast would lose (see BandwidthUsage.Make on the 32-bit casts).
- Calendar.AddMonths: dates are unbounded in the model. `DateTime` throws beyond year 9999 and before year 1, for example on `GetLastMonthStart` in January of year 1.
- Cycle.GetLastMonthStart: requires a configured day in 1..28. For 29 to 31 the source's `new DateTime` throws in shorter months.


=== FILE: calendar.dfy ===
/**
 A small proleptic Gregorian calendar: dates without a time of day, their
 ordering, month arithmetic with the semantics of .NET's `DateTime.AddMonths`
 (the day is clamped to the last day of the target month), and a day number
 used as an independent reference for ordering and day counts.
 */
module Calendar {

  datatype Date = Date(year: int, month: int, day: int)

  predicate IsLeapYear(year: int) {
    year % 4 == 0 && (year % 100 != 0 || year % 400 == 0)
  }

  function DaysInMonth(year: int, month: int): (r: int)
    requires 1 <= month <= 12
    ensures 28 <= r <= 31
    ensures month == 2 ==> (r == 29 <==> IsLeapYear(year))
  {
    if month == 2 then (if IsLeapYear(year) then 29 else 28)
    else if month == 4 || month == 6 || month == 9 || month == 11 then 30
    else 31
  }

  function DaysInYear(year: int): int {
    if IsLeapYear(year) then 366 else 365
  }

  /** A real calendar day: month in 1..12 and day within that month. */
  predicate WellFormed(d: Date) {
    1 <= d.month <= 12 && 1 <= d.day <= DaysInMonth(d.year, d.month)
  }

  /** A day `DateTime` can represent (years 1 to 9999). */
  predicate Representable(d: Date) {
    WellFormed(d) && 1 <= d.year <= 9999
  }

  /** Strict chronological order: year, then month, then day. */
  predicate Before(a: Date, b: Date) {
    a.year < b.year
    || (a.year == b.year && a.month < b.month)
    || (a.year == b.year && a.month == b.month && a.day < b.day)
  }

  predicate AtOrBefore(a: Date, b: Date) {
    Before(a, b) || a == b
  }

  /** Months counted from a fixed origin; month arithmetic is addition here. */
  function MonthIndex(year: int, month: int): int {
    year * 12 + (month - 1)
  }

  /** `DateTime.AddMonths(months)`: move by whole months, keeping the day
      unless the target month is shorter, in which case its last day. */
  function AddMonths(d: Date, months: int): (r: Date)
    requires WellFormed(d)
    ensures WellFormed(r)
    ensures MonthIndex(r.year, r.month) == MonthIndex(d.year, d.month) + months
    ensures r.day <= d.day
    ensures r.day == d.day || r.day == DaysInMonth(r.year, r.month)
  {
    var total := d.month - 1 + months;
    var year := d.year + total / 12;
    var month := total % 12 + 1;
    var dim := DaysInMonth(year, month);
    Date(year, month, if d.day > dim then dim else d.day)
  }

  // ---------------------------------------------------------------- day numbers

  /** Days in the years before `year` (counting from year 1). */
  function DaysBeforeYear(year: int): int {
    var y := year - 1;
    365 * y + y / 4 - y / 100 + y / 400
  }

  /** Days in the months of `year` before `month`. */
  function DaysBeforeMonth(year: int, month: int): (r: int)
    requires 1 <= month <= 12
    ensures r >= 0
    decreases month
  {
    if month == 1 then 0
    else DaysBeforeMonth(year, month - 1) + DaysInMonth(year, month - 1)
  }

  /** Consecutive days get consecutive numbers (day 1 is 1 January of year 1). */
  function DayNumber(d: Date): int
    requires 1 <= d.month <= 12
  {
    DaysBeforeYear(d.year) + DaysBeforeMonth(d.year, d.month) + d.day
  }

  /** Consecutive years differ by a multiple of `k` exactly once per `k`. */
  lemma DivStep(y: int, k: int)
    requires k == 4 || k == 100 || k == 400
    ensures y / k - (y - 1) / k == if y % k == 0 then 1 else 0
  {
  }

  lemma YearStep(year: int)
    ensures DaysBeforeYear(year + 1) == DaysBeforeYear(year) + DaysInYear(year)
  {
    DivStep(year, 4);
    DivStep(year, 100);
    DivStep(year, 400);
  }

  lemma DaysBeforeDecember(year: int)
    ensures DaysBeforeMonth(year, 12) + DaysInMonth(year, 12) == DaysInYear(year)
  {
  }

  lemma {:induction false} DaysBeforeMonthMonotone(year: int, m1: int, m2: int)
    requires 1 <= m1 < m2 <= 12
    ensures DaysBeforeMonth(year, m1) + DaysInMonth(year, m1) <= DaysBeforeMonth(year, m2)
    decreases m2
  {
    if m1 + 1 < m2 {
      DaysBeforeMonthMonotone(year, m1, m2 - 1);
    }
  }

  lemma {:induction false} DaysBeforeYearMonotone(y1: int, y2: int)
    requires y1 < y2
    ensures DaysBeforeYear(y1) + DaysInYear(y1) <= DaysBeforeYear(y2)
    decreases y2 - y1
  {
    YearStep(y1);
    if y1 + 1 < y2 {
      DaysBeforeYearMonotone(y1 + 1, y2);
    }
  }

  /** The last day of a year is numbered just before 1 January of the next. */
  lemma DayWithinYear(d: Date)
    requires WellFormed(d)
    ensures DayNumber(d) <= DaysBeforeYear(d.year) + DaysInYear(d.year)
  {
    DaysBeforeDecember(d.year);
    if d.month < 12 {
      DaysBeforeMonthMonotone(d.year, d.month, 12);
    }
  }

  /** The lexicographic order agrees with the day numbers: `Before` is the
      chronological order. */
  lemma BeforeIffSmallerDayNumber(a: Date, b: Date)
    requires WellFormed(a) && WellFormed(b)
    ensures Before(a, b) <==> DayNumber(a) < DayNumber(b)
    ensures a == b <==> DayNumber(a) == DayNumber(b)
  {
    if Before(a, b) {
      BeforeMeansSmaller(a, b);
    } else if Before(b, a) {
      BeforeMeansSmaller(b, a);
    }
  }

  lemma BeforeMeansSmaller(a: Date, b: Date)
    requires WellFormed(a) && WellFormed(b) && Before(a, b)
    ensures DayNumber(a) < DayNumber(b)
  {
    if a.year < b.year {
      DayWithinYear(a);
      DaysBeforeYearMonotone(a.year, b.year);
    } else if a.month < b.month {
      DaysBeforeMonthMonotone(a.year, a.month, b.month);
    }
  }

  /** Day count from a day to the same or another day of the next month. */
  lemma DaysToNextMonth(d: Date, nextDay: int)
    requires WellFormed(d)
    ensures var n := AddMonths(Date(d.year, d.month, 1), 1);
            DayNumber(Date(n.year, n.month, nextDay)) - DayNumber(d)
              == DaysInMonth(d.year, d.month) - d.day + nextDay
  {
    var n := AddMonths(Date(d.year, d.month, 1), 1);
    if d.month == 12 {
      assert n == Date(d.year + 1, 1, 1);
      YearStep(d.year);
      DaysBeforeDecember(d.year);
    } else {
      assert n == Date(d.year, d.month + 1, 1);
      assert DaysBeforeMonth(d.year, d.month + 1)
               == DaysBeforeMonth(d.year, d.month) + DaysInMonth(d.year, d.month);
    }
  }

  // ---------------------------------------------------------------- order facts

  lemma BeforeTransitive(a: Date, b: Date, c: Date)
    requires AtOrBefore(a, b) && AtOrBefore(b, c)
    ensures AtOrBefore(a, c)
    ensures Before(a, b) || Before(b, c) ==> Before(a, c)
  {
  }

  /** On well-formed dates the order is the order of month index, then day. */
  lemma BeforeByMonthIndex(a: Date, b: Date)
    requires 1 <= a.month <= 12 && 1 <= b.month <= 12
    ensures Before(a, b) <==>
      MonthIndex(a.year, a.month) < MonthIndex(b.year, b.month)
      || (MonthIndex(a.year, a.month) == MonthIndex(b.year, b.month) && a.day < b.day)
  {
    var ia := MonthIndex(a.year, a.month);
    var ib := MonthIndex(b.year, b.month);
    if a.year < b.year {
      assert ia < ib;
    } else if a.year > b.year {
      assert ia > ib;
    }
  }

  /** A month later is later; a month earlier is earlier; and for days up to
      the 28th (present in every month) one step back and one step forward
      return to the same date. */
  lemma AddMonthsFacts(d: Date)
    requires WellFormed(d)
    ensures Before(d, AddMonths(d, 1))
    ensures Before(AddMonths(d, -1), d)
    ensures d.day <= 28 ==> AddMonths(d, 1).day == d.day && AddMonths(d, -1).day == d.day
    ensures d.day <= 28 ==> AddMonths(AddMonths(d, -1), 1) == d
  {
    BeforeByMonthIndex(d, AddMonths(d, 1));
    BeforeByMonthIndex(AddMonths(d, -1), d);
    if d.day <= 28 {
      var p := AddMonths(d, -1);
      MonthIndexInjective(AddMonths(p, 1), d);
    }
  }

  lemma MonthIndexInjective(a: Date, b: Date)
    requires 1 <= a.month <= 12 && 1 <= b.month <= 12
    requires MonthIndex(a.year, a.month) == MonthIndex(b.year, b.month)
    ensures a.year == b.year && a.month == b.month
  {
  }
}

=== FILE: cycle.dfy ===
/**
 The calendar side of the tracker: where the current billing cycle started,
 whether a new day or a new cycle has begun, how many days are left in the
 cycle, and the "budget so far" figure behind the remaining-today display.

 `today` is a parameter (the source reads the system clock). The configured
 cycle start day `monthStart` is assumed to lie in 1..28, so that it exists
 in every month; the source builds `new DateTime(year, month, monthStart)`,
 which would throw for a day the month does not have.
 */
module Cycle {
  import opened Calendar

  /** Bytes in one gibibyte: the unit of the configured monthly limit. */
  const GiB: int := 1024 * 1024 * 1024

  /** The fixed divisor the daily allowance uses, whatever the month length. */
  const AllowanceDays: int := 31

  predicate ValidMonthStart(monthStart: int) {
    1 <= monthStart <= 28
  }

  /** The most recent date on day `monthStart` that is not after `today`:
      this month's occurrence, or last month's when it is still ahead. */
  function GetLastMonthStart(today: Date, monthStart: int): (r: Date)
    requires WellFormed(today) && ValidMonthStart(monthStart)
    ensures WellFormed(r) && r.day == monthStart
    ensures AtOrBefore(r, today)
    ensures Before(today, AddMonths(r, 1))
  {
    var start := Date(today.year, today.month, monthStart);
    AddMonthsFacts(start);
    if Before(today, start) then AddMonths(start, -1) else start
  }

  /** The source's `IsNewDay`: today is strictly after the given day. */
  predicate IsNewDay(lastDate: Date, today: Date) {
    Before(lastDate, today)
  }

  /** The source's `IsNewMonth`: today is on or after one month past the
      given cycle start. */
  predicate IsNewMonth(lastMonthStart: Date, today: Date)
    requires WellFormed(lastMonthStart)
  {
    AtOrBefore(AddMonths(lastMonthStart, 1), today)
  }

  /** Days left in the cycle: up to `monthStart` of this month when it is
      still ahead, else the rest of this month plus `monthStart`. */
  function DaysRemaining(today: Date, monthStart: int): (r: int)
    requires WellFormed(today) && ValidMonthStart(monthStart)
    ensures 1 <= r <= DaysInMonth(today.year, today.month)
    ensures r == DaysInMonth(today.year, today.month) <==> today.day == monthStart
  {
    var day := today.day;
    if day < monthStart then monthStart - day
    else DaysInMonth(today.year, today.month) + monthStart - day
  }

  /** The first day of the next cycle. */
  function NextCycleStart(today: Date, monthStart: int): Date
    requires WellFormed(today) && ValidMonthStart(monthStart)
  {
    AddMonths(GetLastMonthStart(today, monthStart), 1)
  }

  // ---------------------------------------------------------------- allowance

  /** `_monthLimit`: the configured limit in GiB, as bytes. */
  function MonthLimit(limitGB: int): (r: int)
    ensures r % GiB == 0 && r / GiB == limitGB
    ensures limitGB >= 0 ==> r >= limitGB
  {
    limitGB * GiB
  }

  /** Division of 64-bit integers in C#: the quotient is truncated toward zero. */
  function TruncDiv(a: int, b: int): (q: int)
    requires b > 0
    ensures a >= 0 ==> q * b <= a < (q + 1) * b
    ensures a < 0 ==> (q - 1) * b < a <= q * b
  {
    if a >= 0 then a / b else -((-a) / b)
  }

  /** `dailyAllowance = _monthLimit / 31`. */
  function DailyAllowance(monthLimit: int): (r: int)
    ensures monthLimit >= 0 ==> 0 <= AllowanceDays * r <= monthLimit < AllowanceDays * (r + 1)
    ensures monthLimit < 0 ==> AllowanceDays * (r - 1) < monthLimit <= AllowanceDays * r <= 0
  {
    TruncDiv(monthLimit, AllowanceDays)
  }

  /** `daysPassed = 31 - DaysRemaining() + 1`. */
  function DaysPassed(today: Date, monthStart: int): (r: int)
    requires WellFormed(today) && ValidMonthStart(monthStart)
    ensures 1 <= r <= AllowanceDays
    ensures r >= AllowanceDays + 1 - DaysInMonth(today.year, today.month)
  {
    AllowanceDays - DaysRemaining(today, monthStart) + 1
  }

  /** The integer budget so far, `daysPassed * dailyAllowance`, in bytes; the
      source turns it into floating-point GiB before subtracting the usage. */
  function BudgetSoFar(monthLimit: int, today: Date, monthStart: int): (r: int)
    requires WellFormed(today) && ValidMonthStart(monthStart)
    ensures monthLimit >= 0 ==> DailyAllowance(monthLimit) <= r <= monthLimit
    ensures monthLimit >= 0 && DaysRemaining(today, monthStart) == 1 ==>
              monthLimit - AllowanceDays < r
  {
    var days := DaysPassed(today, monthStart);
    var daily := DailyAllowance(monthLimit);
    if monthLimit >= 0 then ScaleWithin(days, daily); days * daily
    else days * daily
  }

  /** `days * daily` grows with the number of days, from 1 to 31. */
  lemma ScaleWithin(days: int, daily: int)
    requires 1 <= days <= AllowanceDays && daily >= 0
    ensures daily <= days * daily <= AllowanceDays * daily
  {
    assert (days - 1) * daily >= 0;
    assert (AllowanceDays - days) * daily >= 0;
  }

  // ---------------------------------------------------------------- lemmas

  /** The cycle start just computed is not yet a month old. */
  lemma LastMonthStartIsNotNewMonth(today: Date, monthStart: int)
    requires WellFormed(today) && ValidMonthStart(monthStart)
    ensures !IsNewMonth(GetLastMonthStart(today, monthStart), today)
    ensures !IsNewDay(today, today)
  {
  }

  /** `GetLastMonthStart` is the LATEST date on day `monthStart` not after today. */
  lemma LastMonthStartIsLatest(today: Date, monthStart: int, d: Date)
    requires WellFormed(today) && ValidMonthStart(monthStart)
    requires WellFormed(d) && d.day == monthStart && AtOrBefore(d, today)
    ensures AtOrBefore(d, GetLastMonthStart(today, monthStart))
  {
    var r := GetLastMonthStart(today, monthStart);
    var next := AddMonths(r, 1);
    BeforeByMonthIndex(d, today);
    BeforeByMonthIndex(today, next);
    BeforeByMonthIndex(r, d);
    BeforeByMonthIndex(d, r);
    if MonthIndex(d.year, d.month) == MonthIndex(r.year, r.month) {
      MonthIndexInjective(d, r);
    }
  }

  /** `IsNewDay` and `IsNewMonth` compare dates chronologically: by day
      numbers, today lies after the last day, or at or after one month past
      the cycle start. */
  lemma NewDayAndMonthByDayNumber(last: Date, start: Date, today: Date)
    requires WellFormed(last) && WellFormed(start) && WellFormed(today)
    ensures IsNewDay(last, today) <==> DayNumber(last) < DayNumber(today)
    ensures IsNewMonth(start, today) <==> DayNumber(AddMonths(start, 1)) <= DayNumber(today)
  {
    BeforeIffSmallerDayNumber(last, today);
    BeforeIffSmallerDayNumber(AddMonths(start, 1), today);
  }

  /** `DaysRemaining` counts the days from today up to the next cycle start,
      as measured by day numbers. */
  lemma DaysRemainingCountsDays(today: Date, monthStart: int)
    requires WellFormed(today) && ValidMonthStart(monthStart)
    ensures DaysRemaining(today, monthStart)
              == DayNumber(NextCycleStart(today, monthStart)) - DayNumber(today)
  {
    var start := Date(today.year, today.month, monthStart);
    AddMonthsFacts(start);
    if today.day >= monthStart {
      DaysToNextMonth(today, monthStart);
    }
  }

  /** The budget grows by one daily allowance per day: between two days of
      the same cycle, the days passed differ by the days between them, and
      the budget by that many allowances. */
  lemma BudgetPerDay(monthLimit: int, a: Date, b: Date, monthStart: int)
    requires WellFormed(a) && WellFormed(b) && ValidMonthStart(monthStart)
    requires NextCycleStart(a, monthStart) == NextCycleStart(b, monthStart)
    ensures DaysPassed(b, monthStart) - DaysPassed(a, monthStart) == DayNumber(b) - DayNumber(a)
    ensures BudgetSoFar(monthLimit, b, monthStart) - BudgetSoFar(monthLimit, a, monthStart)
              == (DayNumber(b) - DayNumber(a)) * DailyAllowance(monthLimit)
  {
    DaysRemainingCountsDays(a, monthStart);
    DaysRemainingCountsDays(b, monthStart);
    ScaleDifference(DaysPassed(a, monthStart), DaysPassed(b, monthStart), DailyAllowance(monthLimit));
  }

  lemma ScaleDifference(x: int, y: int, d: int)
    ensures y * d - x * d == (y - x) * d
  {
  }

  /** With the cycle starting on the 6th: day 3 leaves 3, day 6 leaves the
      whole month, day 20 of a 30-day month leaves 16. */
  lemma DaysRemainingExamples()
    ensures DaysRemaining(Date(2024, 3, 3), 6) == 3
    ensures DaysRemaining(Date(2024, 3, 6), 6) == 31
    ensures DaysRemaining(Date(2024, 2, 6), 6) == 29
    ensures DaysRemaining(Date(2024, 4, 20), 6) == 16
  {
  }

  /** The fixed divisor of 31: on the first day of a cycle that starts in a
      28-day month, four days' allowance is already budgeted. */
  lemma FixedDivisorExample()
    ensures DaysPassed(Date(2023, 2, 6), 6) == 4
    ensures DaysPassed(Date(2023, 3, 6), 6) == 1
  {
  }
}

=== FILE: decimal.dfy ===
/**
 The text layer of the snapshot: base-10 integers as written by .NET's
 `ToString()` and read by `int.Parse` / `long.Parse` (default integer style:
 optional surrounding white space, an optional leading sign, then digits),
 lines ended by "\r\n" as `StringBuilder.AppendLine` writes them on Windows,
 and `string.Split` on "\r\n" with empty entries removed.
 */
module Decimal {

  /** The line terminator `AppendLine` writes (`Environment.NewLine` on Windows). */
  const NewLine: string := "\r\n"

  predicate IsDigit(c: char) {
    '0' <= c <= '9'
  }

  /** White space that the default integer style allows around the number. */
  predicate IsWhite(c: char) {
    c == ' ' || c == '\t' || c == '\n' || c == '\U{B}' || c == '\U{C}' || c == '\r'
  }

  predicate AllDigits(s: string) {
    forall i :: 0 <= i < |s| ==> IsDigit(s[i])
  }

  function DigitChar(d: int): (c: char)
    requires 0 <= d <= 9
    ensures IsDigit(c)
    ensures c as int - '0' as int == d
  {
    ('0' as int + d) as char
  }

  // ---------------------------------------------------------------- writing

  /** Decimal digits of a natural number, most significant first, no leading zeros. */
  function NatToString(n: nat): (s: string)
    ensures |s| > 0 && AllDigits(s)
    ensures |s| > 1 ==> s[0] != '0'
    decreases n
  {
    if n < 10 then [DigitChar(n)]
    else NatToString(n / 10) + [DigitChar(n % 10)]
  }

  /** `long.ToString()`: a minus sign before the digits of a negative number. */
  function IntToString(x: int): (s: string)
    ensures |s| > 0
    ensures forall i :: 0 <= i < |s| ==> !IsWhite(s[i])
    ensures x >= 0 <==> AllDigits(s)
  {
    if x >= 0 then NatToString(x)
    else
      var s := "-" + NatToString(-x);
      assert !IsDigit(s[0]);
      s
  }

  // ---------------------------------------------------------------- reading

  /** Value of a non-empty run of decimal digits. */
  function DigitsValue(s: string): (n: nat)
    requires |s| > 0 && AllDigits(s)
    decreases |s|
  {
    var last := s[|s| - 1] as int - '0' as int;
    if |s| == 1 then last else DigitsValue(s[..|s| - 1]) * 10 + last
  }

  function TrimStart(s: string): (t: string)
    ensures |t| <= |s| && t == s[|s| - |t|..]
    ensures |t| > 0 ==> !IsWhite(t[0])
    decreases |s|
  {
    if |s| > 0 && IsWhite(s[0]) then TrimStart(s[1..]) else s
  }

  function TrimEnd(s: string): (t: string)
    ensures |t| <= |s| && t == s[..|t|]
    ensures |t| > 0 ==> !IsWhite(t[|t| - 1])
    decreases |s|
  {
    if |s| > 0 && IsWhite(s[|s| - 1]) then TrimEnd(s[..|s| - 1]) else s
  }

  /** A sign or a digit, then only digits. */
  predicate SignedDigits(t: string) {
    && |t| > 0 && (IsDigit(t[0]) || (|t| > 1 && (t[0] == '-' || t[0] == '+')))
    && forall i :: 1 <= i < |t| ==> IsDigit(t[i])
  }

  /** `long.Parse`: `None` where .NET throws a `FormatException`. */
  function ParseInt(s: string): (r: Option<int>)
    ensures var t := TrimEnd(TrimStart(s));
            r.Some? ==> SignedDigits(t) && (r.value < 0 ==> t[0] == '-')
    ensures var t := TrimEnd(TrimStart(s));
            |t| > 0 && AllDigits(t) ==> r == Some(DigitsValue(t))
    ensures var t := TrimEnd(TrimStart(s));
            |t| > 1 && (t[0] == '-' || t[0] == '+') && AllDigits(t[1..]) ==>
              r == Some(if t[0] == '-' then 0 - DigitsValue(t[1..]) as int else DigitsValue(t[1..]) as int)
    ensures |TrimStart(s)| == 0 ==> r == None
  {
    ParseSigned(TrimEnd(TrimStart(s)))
  }

  /** An optional sign and at least one digit, nothing else. */
  function ParseSigned(t: string): (r: Option<int>)
    ensures |t| > 0 && AllDigits(t) ==> r == Some(DigitsValue(t))
    ensures r.Some? ==> SignedDigits(t) && (r.value < 0 ==> t[0] == '-')
  {
    if |t| > 0 && (t[0] == '-' || t[0] == '+') then
      var digits := t[1..];
      if |digits| > 0 && AllDigits(digits) then
        var v: int := DigitsValue(digits);
        Some(if t[0] == '-' then -v else v)
      else None
    else if |t| > 0 && AllDigits(t) then Some(DigitsValue(t))
    else None
  }

  datatype Option<T> = None | Some(value: T)

  // ---------------------------------------------------------------- lines

  /** Each value on its own line, every line ended by `NewLine`. */
  function WriteLines(xs: seq<int>): (s: string)
    ensures |xs| > 0 ==> |s| >= 2 && s[|s| - 2..] == NewLine
    decreases |xs|
  {
    if |xs| == 0 then "" else IntToString(xs[0]) + NewLine + WriteLines(xs[1..])
  }

  /** The accumulated piece as an entry, unless it is empty. */
  function Keep(piece: string): (r: seq<string>)
    ensures |r| <= 1
    ensures |r| == 1 <==> |piece| > 0
  {
    if |piece| == 0 then [] else [piece]
  }

  /** Split `s` on "\r\n", scanning left to right, `piece` being the part of the
      current entry already read; empty entries are dropped. */
  function SplitFrom(s: string, piece: string): (r: seq<string>)
    ensures forall i :: 0 <= i < |r| ==> |r[i]| > 0
    decreases |s|
  {
    if |s| == 0 then Keep(piece)
    else if |s| >= 2 && s[0] == '\r' && s[1] == '\n' then Keep(piece) + SplitFrom(s[2..], "")
    else SplitFrom(s[1..], piece + [s[0]])
  }

  /** `s.Split(new[] { "\r\n" }, StringSplitOptions.RemoveEmptyEntries)`. */
  function SplitLines(s: string): (r: seq<string>)
    ensures forall i :: 0 <= i < |r| ==> |r[i]| > 0
  {
    SplitFrom(s, "")
  }

  // ---------------------------------------------------------------- round trips

  lemma {:induction false} DigitsValueOfNatToString(n: nat)
    ensures DigitsValue(NatToString(n)) == n
    decreases n
  {
    if n >= 10 {
      var s := NatToString(n);
      assert s[..|s| - 1] == NatToString(n / 10);
      DigitsValueOfNatToString(n / 10);
    }
  }

  lemma TrimNoWhite(s: string)
    requires forall i :: 0 <= i < |s| ==> !IsWhite(s[i])
    ensures TrimEnd(TrimStart(s)) == s
  {
  }

  /** Parsing what was written gives back the number. */
  lemma ParseIntOfIntToString(x: int)
    ensures ParseInt(IntToString(x)) == Some(x)
  {
    TrimNoWhite(IntToString(x));
    if x >= 0 {
      DigitsValueOfNatToString(x);
    } else {
      ParseNegative(-x);
    }
  }

  lemma ParseNegative(n: int)
    requires n > 0
    ensures ParseSigned("-" + NatToString(n)) == Some(-n)
  {
    var t := "-" + NatToString(n);
    assert t[1..] == NatToString(n);
    DigitsValueOfNatToString(n);
  }

  /** Splitting consumes a line free of '\r' up to its terminator. */
  lemma {:induction false} SplitFromLine(line: string, rest: string, piece: string)
    requires forall i :: 0 <= i < |line| ==> line[i] != '\r'
    ensures SplitFrom(line + NewLine + rest, piece) == Keep(piece + line) + SplitFrom(rest, "")
    decreases |line|
  {
    if |line| == 0 {
      assert line + NewLine + rest == ['\r', '\n'] + rest;
      assert piece + line == piece;
    } else {
      var s := line + NewLine + rest;
      assert s[0] == line[0];
      assert s[1..] == line[1..] + NewLine + rest;
      SplitFromLine(line[1..], rest, piece + [line[0]]);
      assert piece + [line[0]] + line[1..] == piece + line;
    }
  }

  /** Splitting the written lines yields one entry per value, in order. */
  lemma {:induction false} SplitWriteLines(xs: seq<int>)
    ensures SplitLines(WriteLines(xs)) == seq(|xs|, i requires 0 <= i < |xs| => IntToString(xs[i]))
    decreases |xs|
  {
    if |xs| > 0 {
      var line := IntToString(xs[0]);
      SplitFromLine(line, WriteLines(xs[1..]), "");
      assert "" + line == line;
      SplitWriteLines(xs[1..]);
    }
  }

  /** The whole text layer round-trips: every field written is read back. */
  lemma ReadBackWrittenLines(xs: seq<int>, i: int)
    requires 0 <= i < |xs|
    ensures |SplitLines(WriteLines(xs))| == |xs|
    ensures ParseInt(SplitLines(WriteLines(xs))[i]) == Some(xs[i])
  {
    SplitWriteLines(xs);
    ParseIntOfIntToString(xs[i]);
  }
}

=== FILE: snapshot.dfy ===
/**
 The saved state: `GetSaveString` writes fourteen decimal lines (current day
 as day, month, year; cycle start likewise; then today's on-peak, today's
 off-peak, the cycle's on-peak and the cycle's off-peak totals, download
 before upload), and the restoring constructor reads them back on a later
 start, keeping the day's totals only if the saved day is not before today
 and the cycle's totals only if the saved cycle has not turned over.

 The restoring constructor reads fields lazily, as the source does: fields
 0 to 5 always, fields 6 to 9 only when the saved day is kept, fields 10 to
 13 only when the saved cycle is kept; entries after the fourteenth are
 ignored. Where .NET would throw (a missing entry, a malformed number, an
 impossible date) the model returns an error.
 */
module Snapshot {
  import opened BandwidthUsage
  import opened Calendar
  import opened Cycle
  import opened Decimal
  import opened Tracker

  /** Number of lines `GetSaveString` writes. */
  const FieldCount: int := 14

  datatype ParseError =
    | MissingField(index: nat)   // `IndexOutOfRangeException`
    | BadNumber(index: nat)      // `FormatException`
    | BadDate(first: nat)        // `ArgumentOutOfRangeException` from `new DateTime`

  datatype Result<T> = Ok(value: T) | Err(error: ParseError) {
    predicate IsFailure() {
      Err?
    }

    function PropagateFailure<U>(): Result<U>
      requires Err?
    {
      Err(error)
    }

    function Extract(): T
      requires Ok?
    {
      value
    }
  }

  /** The fourteen saved numbers, in file order. */
  function Fields(s: State): (xs: seq<int>)
    ensures |xs| == FieldCount
  {
    [s.currentDay.day, s.currentDay.month, s.currentDay.year,
     s.currentMonthStart.day, s.currentMonthStart.month, s.currentMonthStart.year,
     s.todayOnPeak.download, s.todayOnPeak.upload,
     s.todayOffPeak.download, s.todayOffPeak.upload,
     s.monthOnPeak.download, s.monthOnPeak.upload,
     s.monthOffPeak.download, s.monthOffPeak.upload]
  }

  /** The snapshot text: each field on its own line, each line ended by "\r\n". */
  function GetSaveString(s: State): (text: string)
    ensures |SplitLines(text)| == FieldCount
    ensures |text| >= 2 && text[|text| - 2..] == NewLine
  {
    SplitWriteLines(Fields(s));
    WriteLines(Fields(s))
  }

  /** `long.Parse(split[i])`. */
  function ReadField(parts: seq<string>, i: nat): (r: Result<int>)
    ensures i >= |parts| <==> r == Err(MissingField(i))
    ensures i < |parts| && r.Ok? ==> ParseInt(parts[i]) == Some(r.value)
    ensures i < |parts| && r.Err? ==> ParseInt(parts[i]) == None && r.error == BadNumber(i)
  {
    if i >= |parts| then Err(MissingField(i))
    else match ParseInt(parts[i])
         case None => Err(BadNumber(i))
         case Some(x) => Ok(x)
  }

  /** `new DateTime(int.Parse(split[i+2]), int.Parse(split[i+1]), int.Parse(split[i]))`:
      year, then month, then day are read, then the date is checked. */
  function ReadDate(parts: seq<string>, i: nat): (r: Result<Date>)
    ensures r.Ok? ==> Representable(r.value)
    ensures (ReadField(parts, i).Err? || ReadField(parts, i + 1).Err? || ReadField(parts, i + 2).Err?)
            ==> r.Err?
    ensures ReadField(parts, i).Ok? && ReadField(parts, i + 1).Ok? && ReadField(parts, i + 2).Ok? ==>
              var d := Date(ReadField(parts, i + 2).value, ReadField(parts, i + 1).value,
                            ReadField(parts, i).value);
              (Representable(d) ==> r == Ok(d)) && (!Representable(d) ==> r == Err(BadDate(i)))
    ensures r.Ok? ==> ReadField(parts, i) == Ok(r.value.day)
                      && ReadField(parts, i + 1) == Ok(r.value.month)
                      && ReadField(parts, i + 2) == Ok(r.value.year)
  {
    var year :- ReadField(parts, i + 2);
    var month :- ReadField(parts, i + 1);
    var day :- ReadField(parts, i);
    var d := Date(year, month, day);
    if Representable(d) then Ok(d) else Err(BadDate(i))
  }

  /** `new BandwidthUsage(long.Parse(split[i]), long.Parse(split[i+1]))`. */
  function ReadUsage(parts: seq<string>, i: nat): (r: Result<Usage>)
    ensures r.Ok? ==> exists d, u :: ReadField(parts, i) == Ok(d) && ReadField(parts, i + 1) == Ok(u)
                                   && r.value == Make(d, u)
    ensures ReadField(parts, i).Ok? && ReadField(parts, i + 1).Ok? ==>
              r == Ok(Make(ReadField(parts, i).value, ReadField(parts, i + 1).value))
    ensures ReadField(parts, i).Err? || ReadField(parts, i + 1).Err? ==> r.Err?
  {
    var download :- ReadField(parts, i);
    var upload :- ReadField(parts, i + 1);
    Ok(Make(download, upload))
  }

  /** A kept day or cycle whose totals do not parse: the restore fails. */
  predicate MissesKeptTotal(today: Date, parts: seq<string>)
    requires ReadDate(parts, 0).Ok? && ReadDate(parts, 3).Ok?
  {
    var savedDay := ReadDate(parts, 0).value;
    var savedStart := ReadDate(parts, 3).value;
    || (!IsNewDay(savedDay, today) && (ReadUsage(parts, 6).Err? || ReadUsage(parts, 8).Err?))
    || (!IsNewMonth(savedStart, today) && (ReadUsage(parts, 10).Err? || ReadUsage(parts, 12).Err?))
  }

  /** The dates and totals of a restored state are those the entries hold:
      the parsed day with its totals unless it is past, else today with zero
      totals; the parsed cycle start with its totals unless it is a month old,
      else the last configured cycle start with zero totals. */
  predicate KeepsParsedFields(config: Config, today: Date, parts: seq<string>, s: State)
    requires WellFormed(today) && ValidMonthStart(config.monthStart)
  {
    && ReadDate(parts, 0).Ok? && ReadDate(parts, 3).Ok?
    && var savedDay := ReadDate(parts, 0).value;
       var savedStart := ReadDate(parts, 3).value;
       && (!IsNewDay(savedDay, today) ==>
             && s.currentDay == savedDay
             && ReadUsage(parts, 6) == Ok(s.todayOnPeak) && ReadUsage(parts, 8) == Ok(s.todayOffPeak))
       && (IsNewDay(savedDay, today) ==>
             s.currentDay == today && s.todayOnPeak == Zero && s.todayOffPeak == Zero)
       && (!IsNewMonth(savedStart, today) ==>
             && s.currentMonthStart == savedStart
             && ReadUsage(parts, 10) == Ok(s.monthOnPeak) && ReadUsage(parts, 12) == Ok(s.monthOffPeak))
       && (IsNewMonth(savedStart, today) ==>
             && s.currentMonthStart == GetLastMonthStart(today, config.monthStart)
             && s.monthOnPeak == Zero && s.monthOffPeak == Zero)
  }

  /** The restoring constructor: a fresh tracker (which takes its baseline
      from the adapter), then the saved day and cycle with their totals
      unless they are stale. */
  function Restore(config: Config, today: Date, probe: Probe, save: string): (r: Result<State>)
    requires WellFormed(today) && ValidMonthStart(config.monthStart)
    ensures r.Ok? ==> WellFormed(r.value.currentDay) && WellFormed(r.value.currentMonthStart)
    ensures r.Ok? ==> !IsNewDay(r.value.currentDay, today)
    ensures r.Ok? ==> !IsNewMonth(r.value.currentMonthStart, today)
    ensures r.Ok? ==> r.value == Init(config, today, probe).(
              currentDay := r.value.currentDay, currentMonthStart := r.value.currentMonthStart,
              todayOnPeak := r.value.todayOnPeak, todayOffPeak := r.value.todayOffPeak,
              monthOnPeak := r.value.monthOnPeak, monthOffPeak := r.value.monthOffPeak)
    ensures |SplitLines(save)| < 6 ==> r.Err?
    ensures ReadDate(SplitLines(save), 0).Err? || ReadDate(SplitLines(save), 3).Err? ==> r.Err?
    ensures r.Ok? ==> KeepsParsedFields(config, today, SplitLines(save), r.value)
    ensures ReadDate(SplitLines(save), 0).Ok? && ReadDate(SplitLines(save), 3).Ok? ==>
              (r.Err? <==> MissesKeptTotal(today, SplitLines(save)))
  {
    var initial := Init(config, today, probe);
    LastMonthStartIsNotNewMonth(today, config.monthStart);
    var parts := SplitLines(save);
    var savedDay :- ReadDate(parts, 0);
    var savedStart :- ReadDate(parts, 3);
    var withDay :-
      if !IsNewDay(savedDay, today) then
        var onPeak :- ReadUsage(parts, 6);
        var offPeak :- ReadUsage(parts, 8);
        Ok(initial.(currentDay := savedDay, todayOnPeak := onPeak, todayOffPeak := offPeak))
      else Ok(initial.(currentDay := today));
    if !IsNewMonth(savedStart, today) then
      var onPeak :- ReadUsage(parts, 10);
      var offPeak :- ReadUsage(parts, 12);
      Ok(withDay.(currentMonthStart := savedStart, monthOnPeak := onPeak, monthOffPeak := offPeak))
    else Ok(withDay.(currentMonthStart := GetLastMonthStart(today, config.monthStart)))
  }
}

=== FILE: snapshot_properties.dfy ===
/**
 The snapshot round trip: what the restoring constructor makes of the text
 `GetSaveString` writes, on the same day and on a later one.
 */
module SnapshotProperties {
  import opened BandwidthUsage
  import opened Calendar
  import opened Cycle
  import opened Decimal
  import opened Tracker
  import opened TrackerProperties
  import opened Snapshot

  /** Every field of written lines reads back as the number written. */
  lemma ReadFieldsOfWrittenLines(xs: seq<int>)
    ensures forall i: nat :: i < |xs| ==> ReadField(SplitLines(WriteLines(xs)), i) == Ok(xs[i])
    ensures |SplitLines(WriteLines(xs))| == |xs|
  {
    forall i: nat | i < |xs|
      ensures ReadField(SplitLines(WriteLines(xs)), i) == Ok(xs[i])
    {
      ReadBackWrittenLines(xs, i);
    }
    SplitWriteLines(xs);
  }

  /** Restoring from any fourteen written numbers whose two dates exist:
      the saved day and its totals are kept unless the day is past, the saved
      cycle and its totals unless the cycle has turned over; a past day gives
      way to today with zero totals, a finished cycle to the last configured
      cycle start with zero totals; every restored total is the saved pair
      clamped at zero. */
  lemma RestoreWrittenFields(config: Config, today: Date, probe: Probe, xs: seq<int>)
    requires WellFormed(today) && ValidMonthStart(config.monthStart)
    requires |xs| == FieldCount
    requires Representable(Date(xs[2], xs[1], xs[0])) && Representable(Date(xs[5], xs[4], xs[3]))
    ensures var r := Restore(config, today, probe, WriteLines(xs));
            var savedDay := Date(xs[2], xs[1], xs[0]);
            var savedStart := Date(xs[5], xs[4], xs[3]);
            && r.Ok?
            && (!IsNewDay(savedDay, today) ==>
                  && r.value.currentDay == savedDay
                  && r.value.todayOnPeak == Make(xs[6], xs[7])
                  && r.value.todayOffPeak == Make(xs[8], xs[9]))
            && (IsNewDay(savedDay, today) ==>
                  r.value.currentDay == today && r.value.todayOnPeak == Zero && r.value.todayOffPeak == Zero)
            && (!IsNewMonth(savedStart, today) ==>
                  && r.value.currentMonthStart == savedStart
                  && r.value.monthOnPeak == Make(xs[10], xs[11])
                  && r.value.monthOffPeak == Make(xs[12], xs[13]))
            && (IsNewMonth(savedStart, today) ==>
                  && r.value.currentMonthStart == GetLastMonthStart(today, config.monthStart)
                  && r.value.monthOnPeak == Zero && r.value.monthOffPeak == Zero)
  {
    ReadFieldsOfWrittenLines(xs);
  }

  /** The state restored from a snapshot of `s`, on a day when neither the
      saved day nor the saved cycle is stale. */
  function Restored(config: Config, today: Date, probe: Probe, s: State): State
    requires WellFormed(today) && ValidMonthStart(config.monthStart)
  {
    Init(config, today, probe).(
      currentDay := s.currentDay, currentMonthStart := s.currentMonthStart,
      todayOnPeak := s.todayOnPeak, todayOffPeak := s.todayOffPeak,
      monthOnPeak := s.monthOnPeak, monthOffPeak := s.monthOffPeak)
  }

  /** Round trip: restored on a day when the saved day is not past and the
      saved cycle has not turned over, a snapshot gives back both dates and
      all four totals; the adapter baseline is taken afresh. */
  lemma RestoreRoundTrip(config: Config, today: Date, probe: Probe, s: State)
    requires WellFormed(today) && ValidMonthStart(config.monthStart)
    requires Representable(s.currentDay) && Representable(s.currentMonthStart)
    requires !IsNewDay(s.currentDay, today) && !IsNewMonth(s.currentMonthStart, today)
    ensures Restore(config, today, probe, GetSaveString(s)) == Ok(Restored(config, today, probe, s))
  {
    RestoreWrittenFields(config, today, probe, Fields(s));
  }

  /** A snapshot restored on a later day: today's totals start at zero, the
      cycle's survive while the saved cycle is less than a month old. */
  lemma RestoreDiscardsStale(config: Config, today: Date, probe: Probe, s: State)
    requires WellFormed(today) && ValidMonthStart(config.monthStart)
    requires Representable(s.currentDay) && Representable(s.currentMonthStart)
    requires IsNewDay(s.currentDay, today)
    ensures var r := Restore(config, today, probe, GetSaveString(s));
            && r.Ok?
            && r.value.currentDay == today
            && r.value.todayOnPeak == Zero && r.value.todayOffPeak == Zero
            && (!IsNewMonth(s.currentMonthStart, today) ==>
                  r.value.currentMonthStart == s.currentMonthStart
                  && r.value.monthOnPeak == s.monthOnPeak && r.value.monthOffPeak == s.monthOffPeak)
            && (IsNewMonth(s.currentMonthStart, today) ==>
                  r.value.currentMonthStart == GetLastMonthStart(today, config.monthStart)
                  && r.value.monthOnPeak == Zero && r.value.monthOffPeak == Zero)
  {
    RestoreWrittenFields(config, today, probe, Fields(s));
  }

  /** The two dates of written lines read back as written. */
  lemma ReadDatesOfWrittenLines(xs: seq<int>)
    requires |xs| >= 6
    requires Representable(Date(xs[2], xs[1], xs[0])) && Representable(Date(xs[5], xs[4], xs[3]))
    ensures ReadDate(SplitLines(WriteLines(xs)), 0) == Ok(Date(xs[2], xs[1], xs[0]))
    ensures ReadDate(SplitLines(WriteLines(xs)), 3) == Ok(Date(xs[5], xs[4], xs[3]))
  {
    ReadFieldsOfWrittenLines(xs);
  }

  /** Fields are read only when needed: six lines suffice when the saved day
      and the saved cycle are both stale, but not when the day is kept. */
  lemma RestoreReadsLazily(config: Config, today: Date, probe: Probe, xs: seq<int>)
    requires WellFormed(today) && ValidMonthStart(config.monthStart)
    requires |xs| == 6
    requires Representable(Date(xs[2], xs[1], xs[0])) && Representable(Date(xs[5], xs[4], xs[3]))
    ensures var r := Restore(config, today, probe, WriteLines(xs));
            && ((IsNewDay(Date(xs[2], xs[1], xs[0]), today) && IsNewMonth(Date(xs[5], xs[4], xs[3]), today))
                  ==> r.Ok? && r.value.currentDay == today)
            && (!IsNewDay(Date(xs[2], xs[1], xs[0]), today) ==> r == Err(MissingField(6)))
  {
    var parts := SplitLines(WriteLines(xs));
    ReadFieldsOfWrittenLines(xs);
    ReadDatesOfWrittenLines(xs);
    assert |parts| == 6;
    assert ReadUsage(parts, 6) == Err(MissingField(6));
  }

  /** A snapshot taken after a tick that got past the adapter check is
      restored exactly on that same day: the tick leaves neither the day nor
      the cycle stale. (A tick abandoned for want of an adapter performs no
      rollover, so its snapshot may carry a past day.) */
  lemma SaveAfterTickRestores(config: Config, s: State, today: Date, probe: Probe, later: Probe)
    requires Valid(s) && Representable(s.currentDay) && Representable(s.currentMonthStart)
    requires Representable(today)
    requires ValidMonthStart(config.monthStart)
    requires s.hasInterface || probe.interfaceUp
    ensures var t := Tick(s, today, probe).state;
            Restore(config, today, later, GetSaveString(t)) == Ok(Restored(config, today, later, t))
  {
    var t := Tick(s, today, probe).state;
    TickPreservesValid(s, today, probe);
    assert Representable(t.currentDay) && Representable(t.currentMonthStart);
    assert !IsNewDay(t.currentDay, today) && !IsNewMonth(t.currentMonthStart, today);
    RestoreRoundTrip(config, today, later, t);
  }
}

=== FILE: tracker.dfy ===
/**
 The accounting state of the bandwidth tracker and its two-second tick.

 The clock and the network adapter are inputs: each tick receives `today`
 and one `Probe`, which says whether an operational adapter can be found
 and what cumulative (download, upload) counters the adapter in use reports.
 A tick is one atomic step; the timer, the `Tick` event and threads are not
 modelled, the event being reduced to the `notified` flag of the result.
 */
module Tracker {
  import opened BandwidthUsage
  import opened Calendar
  import opened Cycle

  /** The timer interval, in milliseconds. */
  const IntervalMs: int := 2000

  /** A tick whose download delta reaches this many bytes is ignored. */
  const GlitchLimit: int := 1024 * 1024 * 10

  /** The constructor arguments; the off-peak hours are stored but unused. */
  datatype Config = Config(monthLimitGB: int, monthStart: int, offPeakStart: int, offPeakEnd: int)

  /** What one tick learns about the network: `interfaceUp` is whether an
      operational adapter can be found (consulted only while none is held),
      `counters` what the adapter in use reports since it came up. */
  datatype Probe = Probe(interfaceUp: bool, counters: Usage)

  datatype State = State(
    monthLimit: int,
    monthStart: int,
    offPeakStart: int,
    offPeakEnd: int,
    currentDay: Date,
    currentMonthStart: Date,
    hasInterface: bool,
    ignored: Usage,          // adapter counters at the last (re-)baseline
    counted: Usage,          // counters minus `ignored` at the last tick
    todayOnPeak: Usage,
    todayOffPeak: Usage,
    monthOnPeak: Usage,
    monthOffPeak: Usage,
    downloadSpeed: int,      // kB/s over the last accepted tick
    uploadSpeed: int)

  /** The state after a tick, and whether the `Tick` event was raised. */
  datatype Step = Step(state: State, notified: bool)

  /** The states the tracker keeps: a configured cycle start day in range and
      well-formed dates, the current day inside the current cycle. */
  predicate Valid(s: State) {
    && ValidMonthStart(s.monthStart)
    && WellFormed(s.currentDay)
    && WellFormed(s.currentMonthStart)
    && AtOrBefore(s.currentMonthStart, s.currentDay)
    && Before(s.currentDay, AddMonths(s.currentMonthStart, 1))
  }

  /** The source's `TotalBytes`: the adapter's counters, or zero with none held. */
  function AdapterTotal(s: State, probe: Probe): (r: Usage)
    ensures !s.hasInterface ==> r == Zero
    ensures s.hasInterface ==> r == probe.counters
  {
    if s.hasInterface then probe.counters else Zero
  }

  /** The fresh tracker: today's date, the cycle start from the configured
      day, the adapter's counters at start-up taken as the baseline. */
  function Init(config: Config, today: Date, probe: Probe): (s: State)
    requires WellFormed(today) && ValidMonthStart(config.monthStart)
    ensures Valid(s)
    ensures s.currentDay == today && s.hasInterface == probe.interfaceUp
    ensures s.currentMonthStart == GetLastMonthStart(today, config.monthStart)
    ensures s.counted == Zero && s.todayOnPeak == Zero && s.monthOnPeak == Zero
    ensures s.todayOffPeak == Zero && s.monthOffPeak == Zero
    ensures s.monthLimit == MonthLimit(config.monthLimitGB) && s.monthStart == config.monthStart
    ensures s.offPeakStart == config.offPeakStart && s.offPeakEnd == config.offPeakEnd
    ensures s.hasInterface ==> s.ignored == probe.counters
    ensures !s.hasInterface ==> s.ignored == Zero
    ensures s.downloadSpeed == 0 && s.uploadSpeed == 0
  {
    var start := GetLastMonthStart(today, config.monthStart);
    AddMonthsFacts(start);
    var s := State(MonthLimit(config.monthLimitGB), config.monthStart,
                   config.offPeakStart, config.offPeakEnd,
                   today, start, probe.interfaceUp, Zero, Zero,
                   Zero, Zero, Zero, Zero, 0, 0);
    s.(ignored := AdapterTotal(s, probe))
  }

  /** The peak-time classifier, fixed to "on-peak". */
  predicate IsOffPeakTime(s: State) {
    false
  }

  /** Re-baseline when the adapter's counters fell below the baseline in
      either field (the adapter was reset). */
  function CheckInterfaceReset(s: State, reading: Usage): (r: State)
    ensures Less(reading, s.ignored) ==> r == s.(ignored := reading, counted := Zero)
    ensures !Less(reading, s.ignored) ==> r == s
    ensures AtMost(r.ignored, reading)
  {
    if Less(reading, s.ignored) then s.(ignored := reading, counted := Zero) else s
  }

  /** Add a delta to today's and this cycle's totals of the current class. */
  function UpdateUsage(s: State, bytes: Usage): (r: State)
    ensures r.todayOnPeak == Add(s.todayOnPeak, bytes)
    ensures r.monthOnPeak == Add(s.monthOnPeak, bytes)
    ensures r.todayOffPeak == s.todayOffPeak && r.monthOffPeak == s.monthOffPeak
    ensures r == s.(todayOnPeak := r.todayOnPeak, monthOnPeak := r.monthOnPeak)
  {
    if IsOffPeakTime(s) then
      s.(todayOffPeak := Add(s.todayOffPeak, bytes), monthOffPeak := Add(s.monthOffPeak, bytes))
    else
      s.(todayOnPeak := Add(s.todayOnPeak, bytes), monthOnPeak := Add(s.monthOnPeak, bytes))
  }

  /** Speed in kB/s: bytes per second of the interval, in 1024-byte units. */
  function Speed(bytes: nat): (r: nat)
    ensures r * 2048 <= bytes < (r + 1) * 2048
  {
    bytes / (IntervalMs / 1000) / 1024
  }

  function UpdateDownloadSpeed(s: State, bytes: Usage): (r: State)
    ensures r == s.(downloadSpeed := r.downloadSpeed, uploadSpeed := r.uploadSpeed)
    ensures r.downloadSpeed * 2048 <= bytes.download < (r.downloadSpeed + 1) * 2048
    ensures r.uploadSpeed * 2048 <= bytes.upload < (r.uploadSpeed + 1) * 2048
  {
    s.(downloadSpeed := Speed(bytes.download), uploadSpeed := Speed(bytes.upload))
  }

  /** The day rollover, with the cycle rollover nested inside it. */
  function UpdateNewDay(s: State, today: Date): (r: State)
    requires WellFormed(s.currentMonthStart)
    ensures !IsNewDay(s.currentDay, today) ==> r == s
    ensures IsNewDay(s.currentDay, today) ==>
              r.currentDay == today && r.todayOnPeak == Zero && r.todayOffPeak == Zero
    ensures IsNewDay(s.currentDay, today) && IsNewMonth(s.currentMonthStart, today) ==>
              r.currentMonthStart == today && r.monthOnPeak == Zero && r.monthOffPeak == Zero
    ensures !(IsNewDay(s.currentDay, today) && IsNewMonth(s.currentMonthStart, today)) ==>
              r.currentMonthStart == s.currentMonthStart
              && r.monthOnPeak == s.monthOnPeak && r.monthOffPeak == s.monthOffPeak
    ensures AtOrBefore(today, r.currentDay)
    ensures r.counted == s.counted && r.ignored == s.ignored && r.hasInterface == s.hasInterface
  {
    if IsNewDay(s.currentDay, today) then
      var d := s.(currentDay := today, todayOnPeak := Zero, todayOffPeak := Zero);
      if IsNewMonth(s.currentMonthStart, today) then
        d.(currentMonthStart := today, monthOnPeak := Zero, monthOffPeak := Zero)
      else d
    else s
  }

  /** The state after the interface step of a tick: a newly found adapter
      is baselined at its current counters, a held one is checked for a
      reset. Only meaningful when the tick is not abandoned. */
  function Baseline(s: State, probe: Probe): (r: State)
    ensures r.hasInterface
    ensures r.ignored == probe.counters || r.ignored == s.ignored
    ensures r.counted == Zero || r == s
    ensures r == s.(hasInterface := true, ignored := r.ignored, counted := r.counted)
  {
    if !s.hasInterface then
      var acquired := s.(hasInterface := true);
      acquired.(ignored := AdapterTotal(acquired, probe), counted := Zero)
    else CheckInterfaceReset(s, AdapterTotal(s, probe))
  }

  /** The source's `Bytes`: counters less the baseline. */
  function Bytes(s: State, probe: Probe): (r: Usage)
    ensures AtMost(r, AdapterTotal(s, probe))
  {
    Sub(AdapterTotal(s, probe), s.ignored)
  }

  /** The bytes a tick attributes: what is counted now less what was
      already counted. */
  function Delta(s: State, probe: Probe): (r: Usage)
    ensures AtMost(r, Bytes(Baseline(s, probe), probe))
  {
    var b := Baseline(s, probe);
    Sub(Bytes(b, probe), b.counted)
  }

  /** One timer tick. */
  function Tick(s: State, today: Date, probe: Probe): (r: Step)
    requires WellFormed(s.currentMonthStart) && WellFormed(today)
    ensures WellFormed(r.state.currentMonthStart)
    ensures r.notified <==> s.hasInterface || probe.interfaceUp
    ensures !r.notified ==> r.state == s
    ensures r.notified ==> r.state.hasInterface
    ensures r.notified ==> r.state.counted == Sub(probe.counters, r.state.ignored)
    ensures r.notified ==> AtOrBefore(today, r.state.currentDay)
    ensures r.state.currentDay in {s.currentDay, today}
    ensures r.state.currentMonthStart in {s.currentMonthStart, today}
  {
    if !s.hasInterface && !probe.interfaceUp then Step(s, false)
    else
      var b := Baseline(s, probe);
      var added := Delta(s, probe);
      var c := b.(counted := Bytes(b, probe));
      var u := if added.download < GlitchLimit then UpdateDownloadSpeed(UpdateUsage(c, added), added)
               else c;
      Step(UpdateNewDay(u, today), true)
  }

  /** One timer firing: the date it sees and what the adapter reports. */
  datatype Sample = Sample(today: Date, probe: Probe)

  /** A run of ticks, each on its own date. */
  function Replay(s: State, samples: seq<Sample>): (r: State)
    requires WellFormed(s.currentMonthStart)
    requires forall k :: 0 <= k < |samples| ==> WellFormed(samples[k].today)
    ensures WellFormed(r.currentMonthStart)
    decreases |samples|
  {
    if |samples| == 0 then s
    else Replay(Tick(s, samples[0].today, samples[0].probe).state, samples[1..])
  }

  /** A run of ticks on one calendar day. */
  function Run(s: State, today: Date, probes: seq<Probe>): (r: State)
    requires WellFormed(s.currentMonthStart) && WellFormed(today)
    decreases |probes|
  {
    if |probes| == 0 then s
    else Run(Tick(s, today, probes[0]).state, today, probes[1..])
  }
}

=== FILE: tracker_properties.dfy ===
/**
 What a tick does to the accounting state: the early return without an
 adapter, re-baselining after a counter reset, exact accounting of the
 delta, the 10 MiB glitch guard, speeds, and the day/cycle rollover; and
 over a run of ticks on one day, totals that never decrease.
 */
module TrackerProperties {
  import opened BandwidthUsage
  import opened Calendar
  import opened Cycle
  import opened Tracker

  /** Without a held adapter and with none to be found, a tick changes
      nothing and raises no event. */
  lemma TickWithoutInterface(s: State, today: Date, probe: Probe)
    requires WellFormed(s.currentMonthStart) && WellFormed(today)
    requires !s.hasInterface && !probe.interfaceUp
    ensures Tick(s, today, probe) == Step(s, false)
  {
  }

  /** A newly found adapter is baselined at its current counters, so the
      tick that finds it attributes nothing. */
  lemma TickAcquiresInterface(s: State, today: Date, probe: Probe)
    requires WellFormed(s.currentMonthStart) && WellFormed(today)
    requires !s.hasInterface && probe.interfaceUp
    ensures var t := Tick(s, today, probe).state;
            && t.hasInterface && t.ignored == probe.counters && t.counted == Zero
            && Delta(s, probe) == Zero
            && t.downloadSpeed == 0 && t.uploadSpeed == 0
            && (!IsNewDay(s.currentDay, today) ==>
                  t.todayOnPeak == s.todayOnPeak && t.monthOnPeak == s.monthOnPeak)
  {
  }

  /** Counters below the baseline in either field mean the adapter was
      reset: the baseline becomes the reading, nothing is counted, and the
      tick's delta is zero rather than a clamped difference. */
  lemma TickCounterReset(s: State, today: Date, probe: Probe)
    requires WellFormed(s.currentMonthStart) && WellFormed(today)
    requires s.hasInterface && Less(probe.counters, s.ignored)
    ensures var t := Tick(s, today, probe).state;
            && t.ignored == probe.counters && t.counted == Zero
            && Delta(s, probe) == Zero
            && t.downloadSpeed == 0 && t.uploadSpeed == 0
            && (!IsNewDay(s.currentDay, today) ==>
                  t.todayOnPeak == s.todayOnPeak && t.monthOnPeak == s.monthOnPeak)
  {
  }

  /** On a held adapter whose counters only grew, the delta is exactly the
      growth of the counted bytes: old count plus delta is the new count. */
  lemma TickDeltaIsGrowth(s: State, today: Date, probe: Probe)
    requires WellFormed(s.currentMonthStart) && WellFormed(today)
    requires s.hasInterface && AtMost(s.ignored, probe.counters)
    requires AtMost(s.counted, Sub(probe.counters, s.ignored))
    ensures var t := Tick(s, today, probe).state;
            && t.ignored == s.ignored
            && t.counted == Sub(probe.counters, s.ignored)
            && Add(s.counted, Delta(s, probe)) == t.counted
  {
  }

  /** A delta under the guard is added to today's and this cycle's on-peak
      totals (the cycle total is first zeroed on a cycle rollover, today's is
      zeroed on a day rollover); the off-peak totals stay as they are until a
      rollover, and the speeds are the delta per second in kB. */
  lemma TickAccepted(s: State, today: Date, probe: Probe)
    requires WellFormed(s.currentMonthStart) && WellFormed(today)
    requires s.hasInterface || probe.interfaceUp
    requires Delta(s, probe).download < GlitchLimit
    ensures var t := Tick(s, today, probe).state;
            var delta := Delta(s, probe);
            && (!IsNewDay(s.currentDay, today) ==>
                  && t.todayOnPeak == Add(s.todayOnPeak, delta)
                  && t.monthOnPeak == Add(s.monthOnPeak, delta)
                  && t.todayOffPeak == s.todayOffPeak
                  && t.monthOffPeak == s.monthOffPeak)
            && (IsNewDay(s.currentDay, today) ==> t.todayOnPeak == Zero)
            && (IsNewDay(s.currentDay, today) && !IsNewMonth(s.currentMonthStart, today) ==>
                  t.monthOnPeak == Add(s.monthOnPeak, delta))
            && t.downloadSpeed == delta.download / 2048
            && t.uploadSpeed == delta.upload / 2048
  {
    var b := Baseline(s, probe);
    var delta := Delta(s, probe);
    var u := UpdateDownloadSpeed(UpdateUsage(b.(counted := Bytes(b, probe)), delta), delta);
    assert Tick(s, today, probe).state == UpdateNewDay(u, today);
    assert u.todayOnPeak == Add(s.todayOnPeak, delta) && u.monthOnPeak == Add(s.monthOnPeak, delta);
    assert u.currentDay == s.currentDay && u.currentMonthStart == s.currentMonthStart;
  }

  /** A delta of 10 MiB or more of download is discarded: totals and speeds
      keep their values (up to a rollover), yet the counted bytes advance. */
  lemma TickGlitchGuard(s: State, today: Date, probe: Probe)
    requires WellFormed(s.currentMonthStart) && WellFormed(today)
    requires s.hasInterface || probe.interfaceUp
    requires Delta(s, probe).download >= GlitchLimit
    ensures var t := Tick(s, today, probe).state;
            && t.downloadSpeed == s.downloadSpeed && t.uploadSpeed == s.uploadSpeed
            && t.counted == Sub(probe.counters, t.ignored)
            && (!IsNewDay(s.currentDay, today) ==>
                  && t.todayOnPeak == s.todayOnPeak && t.monthOnPeak == s.monthOnPeak
                  && t.todayOffPeak == s.todayOffPeak && t.monthOffPeak == s.monthOffPeak)
  {
  }

  /** Off-peak totals are never increased by a tick: they keep their value
      or are zeroed by a rollover. */
  lemma TickNeverAddsOffPeak(s: State, today: Date, probe: Probe)
    requires WellFormed(s.currentMonthStart) && WellFormed(today)
    ensures var t := Tick(s, today, probe).state;
            && (t.todayOffPeak == s.todayOffPeak || t.todayOffPeak == Zero)
            && (t.monthOffPeak == s.monthOffPeak || t.monthOffPeak == Zero)
  {
  }

  /** Without a rollover a tick only increases the totals, and the day and
      cycle start stay put. */
  lemma TickMonotoneSameDay(s: State, today: Date, probe: Probe)
    requires WellFormed(s.currentMonthStart) && WellFormed(today)
    requires !IsNewDay(s.currentDay, today)
    ensures var t := Tick(s, today, probe).state;
            && AtMost(s.todayOnPeak, t.todayOnPeak) && AtMost(s.monthOnPeak, t.monthOnPeak)
            && t.todayOffPeak == s.todayOffPeak && t.monthOffPeak == s.monthOffPeak
            && t.currentDay == s.currentDay && t.currentMonthStart == s.currentMonthStart
  {
  }

  /** Over any run of ticks on a day that is not after the current day, the
      on-peak totals never decrease, the off-peak totals stay, and neither
      rollover happens. */
  lemma {:induction false} RunMonotoneSameDay(s: State, today: Date, probes: seq<Probe>)
    requires WellFormed(s.currentMonthStart) && WellFormed(today)
    requires AtOrBefore(today, s.currentDay)
    ensures var t := Run(s, today, probes);
            && AtMost(s.todayOnPeak, t.todayOnPeak) && AtMost(s.monthOnPeak, t.monthOnPeak)
            && t.todayOffPeak == s.todayOffPeak && t.monthOffPeak == s.monthOffPeak
            && t.currentDay == s.currentDay && t.currentMonthStart == s.currentMonthStart
            && TotalBytes(Add(s.todayOnPeak, s.todayOffPeak))
                 <= TotalBytes(Add(t.todayOnPeak, t.todayOffPeak))
            && TotalBytes(Add(s.monthOnPeak, s.monthOffPeak))
                 <= TotalBytes(Add(t.monthOnPeak, t.monthOffPeak))
    decreases |probes|
  {
    if |probes| > 0 {
      var first := Tick(s, today, probes[0]).state;
      TickMonotoneSameDay(s, today, probes[0]);
      RunMonotoneSameDay(first, today, probes[1..]);
      var t := Run(s, today, probes);
      AtMostTransitive(s.todayOnPeak, first.todayOnPeak, t.todayOnPeak);
      AtMostTransitive(s.monthOnPeak, first.monthOnPeak, t.monthOnPeak);
    }
  }

  /** Unless the tick rolls the cycle over, the cycle's on-peak total never
      decreases, its off-peak total and the cycle start stay, whatever the
      day does. */
  lemma TickKeepsCycleTotals(s: State, today: Date, probe: Probe)
    requires WellFormed(s.currentMonthStart) && WellFormed(today)
    requires !(IsNewDay(s.currentDay, today) && IsNewMonth(s.currentMonthStart, today))
    ensures var t := Tick(s, today, probe).state;
            && AtMost(s.monthOnPeak, t.monthOnPeak) && t.monthOffPeak == s.monthOffPeak
            && t.currentMonthStart == s.currentMonthStart
  {
  }

  /** Across any run of ticks, over as many days as it takes, on dates that
      all lie within a month of the cycle start, the cycle never rolls over:
      its start stays, its on-peak total never decreases and its off-peak
      total stays. */
  lemma {:induction false} ReplayKeepsCycleTotals(s: State, samples: seq<Sample>)
    requires WellFormed(s.currentMonthStart)
    requires forall k :: 0 <= k < |samples| ==> WellFormed(samples[k].today)
    requires forall k :: 0 <= k < |samples| ==> !IsNewMonth(s.currentMonthStart, samples[k].today)
    ensures var t := Replay(s, samples);
            && AtMost(s.monthOnPeak, t.monthOnPeak) && t.monthOffPeak == s.monthOffPeak
            && t.currentMonthStart == s.currentMonthStart
            && TotalBytes(Add(s.monthOnPeak, s.monthOffPeak))
                 <= TotalBytes(Add(t.monthOnPeak, t.monthOffPeak))
    decreases |samples|
  {
    if |samples| > 0 {
      var first := Tick(s, samples[0].today, samples[0].probe).state;
      TickKeepsCycleTotals(s, samples[0].today, samples[0].probe);
      assert forall k :: 0 <= k < |samples[1..]| ==> samples[1..][k] == samples[k + 1];
      ReplayKeepsCycleTotals(first, samples[1..]);
      var t := Replay(s, samples);
      AtMostTransitive(s.monthOnPeak, first.monthOnPeak, t.monthOnPeak);
    }
  }

  /** The rollover happens at most once per day: applying it twice on the
      same date is applying it once, and after any tick that raised the event
      the rest of the day's ticks never reset a total. */
  lemma RolloverAtMostOnce(s: State, today: Date, probe: Probe, later: seq<Probe>)
    requires WellFormed(s.currentMonthStart) && WellFormed(today)
    ensures UpdateNewDay(UpdateNewDay(s, today), today) == UpdateNewDay(s, today)
    ensures var t := Tick(s, today, probe);
            var u := Run(t.state, today, later);
            t.notified ==>
              AtMost(t.state.todayOnPeak, u.todayOnPeak) && AtMost(t.state.monthOnPeak, u.monthOnPeak)
              && u.currentDay == t.state.currentDay
  {
    var t := Tick(s, today, probe);
    if t.notified {
      RunMonotoneSameDay(t.state, today, later);
    }
  }

  /** A tick keeps the current day inside the current cycle; and when the
      clock has not gone back, the cycle start is at most a month behind
      today afterwards. */
  lemma TickPreservesValid(s: State, today: Date, probe: Probe)
    requires Valid(s) && WellFormed(today)
    ensures Valid(Tick(s, today, probe).state)
    ensures var t := Tick(s, today, probe).state;
            AtOrBefore(s.currentDay, today) && (s.hasInterface || probe.interfaceUp) ==>
              AtOrBefore(t.currentMonthStart, today) && Before(today, AddMonths(t.currentMonthStart, 1))
  {
    var t := Tick(s, today, probe).state;
    AddMonthsFacts(today);
    AddMonthsFacts(s.currentMonthStart);
    if IsNewDay(s.currentDay, today) && (s.hasInterface || probe.interfaceUp) {
      if IsNewMonth(s.currentMonthStart, today) {
        assert t.currentMonthStart == today && t.currentDay == today;
      } else {
        assert t.currentMonthStart == s.currentMonthStart && t.currentDay == today;
        BeforeTransitive(s.currentMonthStart, s.currentDay, today);
      }
    }
  }

  /** After a missed cycle start day the cycle restarts on the day the
      rollover is seen, not on the configured day: here on the 7th although
      the cycle is configured to start on the 6th. */
  lemma CycleStartFollowsRolloverDay(s: State)
    requires s.monthStart == 6
    requires s.currentDay == Date(2024, 3, 5) && s.currentMonthStart == Date(2024, 2, 6)
    ensures UpdateNewDay(s, Date(2024, 3, 7)).currentMonthStart == Date(2024, 3, 7)
    ensures UpdateNewDay(s, Date(2024, 3, 7)).currentMonthStart.day != s.monthStart
  {
  }
}

=== FILE: usage.dfy ===
/**
 A (download, upload) byte pair with saturating-at-zero arithmetic.

 Both fields are natural numbers: every way of building a pair goes through
 the clamping constructor `Make`, so a negative intermediate value (a counter
 that went backwards, a subtraction of a larger pair) never shows up as
 negative usage. The 64-bit width of the fields is not modelled.
 */
module BandwidthUsage {

  /** Bytes in one mebibyte, the unit of the MB views. */
  const MiB: nat := 1024 * 1024

  datatype Usage = Usage(download: nat, upload: nat)

  /** The pair with both fields zero (the default value of the struct). */
  const Zero: Usage := Usage(0, 0)

  /** `max(x, 0)` on one field. */
  function Clamp(x: int): (r: nat)
    ensures x >= 0 ==> r == x
    ensures x < 0 ==> r == 0
  {
    if x < 0 then 0 else x
  }

  /** The constructor: each field is clamped at zero. */
  function Make(download: int, upload: int): (r: Usage)
    ensures download >= 0 ==> r.download == download
    ensures download < 0 ==> r.download == 0
    ensures upload >= 0 ==> r.upload == upload
    ensures upload < 0 ==> r.upload == 0
  {
    Usage(Clamp(download), Clamp(upload))
  }

  /** Pair plus pair, field by field. */
  function Add(a: Usage, b: Usage): (r: Usage)
    ensures r.download == a.download + b.download
    ensures r.upload == a.upload + b.upload
  {
    Make(a.download + b.download, a.upload + b.upload)
  }

  /** Pair plus a scalar applied to both fields; the scalar may be negative. */
  function AddScalar(a: Usage, value: int): (r: Usage)
    ensures r.download == Clamp(a.download + value)
    ensures r.upload == Clamp(a.upload + value)
  {
    Make(a.download + value, a.upload + value)
  }

  /** Pair minus pair, saturating at zero in each field. */
  function Sub(a: Usage, b: Usage): (r: Usage)
    ensures r.download <= a.download && r.upload <= a.upload
    ensures b.download <= a.download ==> r.download + b.download == a.download
    ensures b.download > a.download ==> r.download == 0
    ensures b.upload <= a.upload ==> r.upload + b.upload == a.upload
    ensures b.upload > a.upload ==> r.upload == 0
  {
    Make(a.download - b.download, a.upload - b.upload)
  }

  /** Pair minus a scalar taken from both fields. */
  function SubScalar(a: Usage, value: int): (r: Usage)
    ensures r.download == Clamp(a.download - value)
    ensures r.upload == Clamp(a.upload - value)
  {
    Make(a.download - value, a.upload - value)
  }

  /** A scalar minus a pair: each field becomes `value - field`, clamped. */
  function ScalarSub(value: int, a: Usage): (r: Usage)
    ensures r.download == Clamp(value - a.download)
    ensures r.upload == Clamp(value - a.upload)
  {
    Make(value - a.download, value - a.upload)
  }

  /** `a < b`: SOME field of `a` is strictly below the matching field of `b`. */
  predicate Less(a: Usage, b: Usage) {
    a.download < b.download || a.upload < b.upload
  }

  /** `a > b`: SOME field of `a` is strictly above the matching field of `b`. */
  predicate Greater(a: Usage, b: Usage) {
    a.download > b.download || a.upload > b.upload
  }

  /** Field-wise "at most": neither field of `a` exceeds that of `b`. */
  predicate AtMost(a: Usage, b: Usage) {
    a.download <= b.download && a.upload <= b.upload
  }

  function TotalBytes(a: Usage): (r: nat)
    ensures r >= a.download && r >= a.upload
    ensures r - a.upload == a.download
  {
    a.download + a.upload
  }

  /** Whole mebibytes downloaded, truncated. */
  function DownloadMB(a: Usage): (r: nat)
    ensures r * MiB <= a.download < (r + 1) * MiB
  {
    a.download / 1024 / 1024
  }

  /** Whole mebibytes uploaded, truncated. */
  function UploadMB(a: Usage): (r: nat)
    ensures r * MiB <= a.upload < (r + 1) * MiB
  {
    a.upload / 1024 / 1024
  }

  /** The sum of the two truncated MB views (not the truncation of the total). */
  function TotalMB(a: Usage): (r: nat)
    ensures r * MiB <= TotalBytes(a) < (r + 2) * MiB
    ensures r * MiB + a.download % MiB + a.upload % MiB == TotalBytes(a)
  {
    WholeMiB(a.download);
    WholeMiB(a.upload);
    DownloadMB(a) + UploadMB(a)
  }

  /** Dividing by 1024 twice is dividing by a mebibyte. */
  lemma WholeMiB(x: nat)
    ensures x / 1024 / 1024 == x / MiB
    ensures x / MiB * MiB + x % MiB == x
  {
  }

  // ---------------------------------------------------------------- lemmas

  /** The constructor is the identity on pairs that are already non-negative,
      and clamping twice is clamping once. */
  lemma MakeIdentityOnNonNegative(a: Usage, d: int, u: int)
    ensures Make(a.download, a.upload) == a
    ensures Make(Make(d, u).download, Make(d, u).upload) == Make(d, u)
  {
  }

  /** The worked example `{5,5} - {10,1} = {0,4}`. */
  lemma SubExample()
    ensures Sub(Usage(5, 5), Usage(10, 1)) == Usage(0, 4)
  {
  }

  /** Subtraction never exceeds its left operand and undoes addition. */
  lemma SubUndoesAdd(a: Usage, b: Usage)
    ensures AtMost(Sub(a, b), a)
    ensures Sub(Add(a, b), b) == a
  {
  }

  /** Adding back what was subtracted restores `a` exactly when no field of
      `a` is below `b`; otherwise the lost part shows as a larger result. */
  lemma AddBackIffNotLess(a: Usage, b: Usage)
    ensures Add(Sub(a, b), b) == a <==> !Less(a, b)
    ensures AtMost(a, Add(Sub(a, b), b))
  {
  }

  /** Saturated subtraction is zero exactly when `a > b` fails. */
  lemma SubZeroIffNotGreater(a: Usage, b: Usage)
    ensures Sub(a, b) == Zero <==> !Greater(a, b)
  {
  }

  /** Addition is commutative, associative, has `Zero` as identity, and each
      field of a sum is at least the matching field of each operand. */
  lemma AddLaws(a: Usage, b: Usage, c: Usage)
    ensures Add(a, b) == Add(b, a)
    ensures Add(Add(a, b), c) == Add(a, Add(b, c))
    ensures Add(a, Zero) == a && Add(Zero, a) == a
    ensures AtMost(a, Add(a, b)) && AtMost(b, Add(a, b))
  {
  }

  /** The scalar forms apply the scalar to both fields: pair minus scalar is
      pair plus the negated scalar, and for a non-negative scalar the three
      scalar forms agree with the pair forms on the pair `{v, v}`. */
  lemma ScalarFormsAgree(a: Usage, v: int)
    ensures SubScalar(a, v) == AddScalar(a, -v)
    ensures v >= 0 ==> AddScalar(a, v) == Add(a, Usage(v, v))
    ensures v >= 0 ==> SubScalar(a, v) == Sub(a, Usage(v, v))
    ensures v >= 0 ==> ScalarSub(v, a) == Sub(Usage(v, v), a)
  {
  }

  /** `<` and `>` mirror each other, are irreflexive, and can hold together,
      so they do not form an order. */
  lemma ComparisonIsNotAnOrder(a: Usage, b: Usage)
    ensures Less(a, b) <==> Greater(b, a)
    ensures !Less(a, a) && !Greater(a, a)
    ensures !Less(a, b) <==> AtMost(b, a)
    ensures Less(Usage(1, 5), Usage(5, 1)) && Greater(Usage(1, 5), Usage(5, 1))
  {
  }

  /** `TotalMB` is the sum of truncations, which can be one below the
      truncation of the total. */
  lemma TotalMBIsNotTruncatedTotal()
    ensures TotalMB(Usage(MiB / 2, MiB / 2)) == 0
    ensures TotalBytes(Usage(MiB / 2, MiB / 2)) / MiB == 1
  {
  }

  /** `AtMost` is a preorder used to state monotonicity of accumulators. */
  lemma AtMostTransitive(a: Usage, b: Usage, c: Usage)
    requires AtMost(a, b) && AtMost(b, c)
    ensures AtMost(a, c)
    ensures TotalBytes(a) <= TotalBytes(c)
  {
  }
}
